=== FILE: README.md ===
# folly Arena: slow-path allocation, merge and teardown

A Dafny model of the out-of-line half of folly's bump-pointer arena
(`folly/memory/Arena-inl.h`). The arena serves small requests by bumping a
cursor (`ptr_`/`end_`) through the current block and falls back to
`allocateSlow` when the cursor cannot serve the request. The slow path draws a
fresh block from the backing allocator. An oversized request gets a block of
exactly its size, parked at the back of the list. Any other request gets a
minimum-size block, rounded up through the allocator's good-size hint, placed
at the front and made the new bump target. A hard limit on the bytes drawn is
checked first, after an overflow-checked size computation. `merge` splices
another arena's blocks in front of ours and drains it. The destructor disposes
every block.

The model is functional:

- `Arenas.Arena` holds the block list (`seq<Block>`), an optional cursor
  standing for `ptr_`/`end_` (a block id plus two payload offsets), the
  running byte count `total`, the size limit, and the minimum block size.
- `Backing.Allocator` is the backing allocator as the arena sees it: a
  source of fresh block ids and a log of acquire/release calls.
- The good-size hint is a parameter `goodSize: SizeT -> SizeT`. Its contract
  (`RoundsUp`: never below the request) is a precondition.
- Failures are `Result` values: `SizeOverflow` for the first `bad_alloc` throw
  and `SizeLimitExceeded` for the second. A failed call returns no state, so
  the caller's arena is unchanged by construction.
- `size_t` arithmetic is written out. `checked_add` is `Sizes.CheckedAdd`, and
  the unsigned `sizeLimit_ - totalAllocatedSize_` is `Sizes.WrapSub`, which
  wraps modulo 2^64.
- `sizeof(Block)` is taken to be 8, one list link on a 64-bit target (see Left out).

Files: `outcomes.dfy` (Option/Result), `sizes.dfy` (size_t arithmetic, the
hint), `backing.dfy` (blocks, `Block::allocate`, `Block::deallocate`),
`arena.dfy` (the arena and its operations), `invariants.dfy` (the arena
invariant, non-overlap of allocations, merge), `limits.dfy` (the size limit),
`teardown.dfy` (disposal accounting), `paths.dfy` (fast/slow path facts).

`ArenaInvariants.Valid` is the invariant the operations keep. It is stated
against the allocator and the list of spans (address plus requested size)
handed out so far:
- block ids are distinct and older than the allocator's next id;
- every block's acquisition is in the allocator's log;
- `total` is the sum of the blocks' footprints (usable bytes plus header);
- every span lies inside a block, and the spans are pairwise disjoint;
- the cursor satisfies `ptr <= end`, points into a normal (never an
  oversized) block, and lies past every span already carved from that block.

## Design notes and code

Three readings of the arena that the code does not bear out. The model follows the code in each case.

- A finite `sizeLimit_` reads as a ceiling on `totalAllocatedSize()`, but the
  code checks the limit against the size before slack rounding and then adds
  the rounded footprint (Arena-inl.h:63-66 against :30 and :86). So the total
  can pass the limit (`SizeLimits.RoundingOvershootsLimit`). After that, the
  unsigned subtraction at :64 wraps to a huge value, and the check no longer
  refuses ordinary requests (`SizeLimits.OvershootDisablesLimitCheck`,
  `SizeLimits.LimitStopsBindingAfterOvershoot`). A single slow allocation
  made from within the limit overshoots it by at most the hint's slack
  (`SizeLimits.SlowPathOvershootBounded`), and not at all when the hint does
  not round the normal block up (`SizeLimits.UnroundedSlowPathKeepsLimit`).
  `merge` adds the other arena's total without any limit check (:105), so a
  merge can also carry the total past the receiver's limit, even with a hint
  that never rounds (`SizeLimits.MergeCarriesPastLimit`). After an overshoot
  by either route, the check at :64 stops binding.
- The C++ Allocator requirements ask `deallocate` for the count that was
  passed to `allocate`, but `Block::deallocate` passes 1 (:49). The model logs
  `Released(id, 1)` and claims nothing about release sizes matching
  acquisition sizes.
- Normal blocks go to the front of the list (:80) so that the head backs the
  cursor, but `merge` splices the other arena's blocks in front (:102) and
  leaves `ptr_`/`end_` alone (:104 touches only the other arena). After a
  merge the head can be a block the cursor never pointed into. The invariant
  therefore says only that the cursor's block is a normal block of the list,
  wherever it sits.

## Model

| member | source | states |
|---|---|---|
| `Sizes.CheckedAdd` | folly/memory/Arena-inl.h:60-62 | the sum is produced exactly when it fits in size_t; otherwise there is no value |
| `Sizes.WrapSub` | folly/memory/Arena-inl.h:64 | unsigned subtraction: the true difference when it is non-negative, 2^64 minus the shortfall when it is negative |
| `Backing.AcquireBlock` | folly/memory/Arena-inl.h:27-35 | the block gets the allocator's next id; its footprint is header plus size, or the hint's answer for that when slack is allowed; usable length is footprint minus header, exactly `size` without slack and at least `size` with it; one acquisition is logged |
| `Backing.ReleaseBlock` | folly/memory/Arena-inl.h:47-50 | exactly one release of the block is logged, with count 1; the id source is unchanged |
| `Arenas.AllocateSlow` | folly/memory/Arena-inl.h:55-88 | fails with overflow exactly when max(size, min) + header is unrepresentable; fails on the limit exactly when that size passes the wrapped limit check; on success one new block with `size <= usable`: oversized requests append a block of exactly `size` at the back and leave the cursor unchanged; others prepend a slack-rounded block of at least the minimum size and set the cursor to `(block, size, usable)`; the address is the block's payload start; total grows by the block's footprint; limit and minimum size are unchanged |
| `Arenas.Allocate` | folly/memory/Arena-inl.h:55-88 | on a miss the result is exactly `allocateSlow`'s; when the request fits before `end`, the abstract fast path (see Left out) serves it at `ptr`, advances the cursor by `size` and changes nothing else |
| `Arenas.Merge` | folly/memory/Arena-inl.h:101-107 | the receiver's list is the other's blocks followed by its own; the block multiset is the union; totals add; the receiver's cursor, limit and minimum size are unchanged; the other arena equals a newly built one with its own configuration |
| `Arenas.Releases` | folly/memory/Arena-inl.h:114-117 | disposing a list front to back makes one release per block, in list order, each with count 1 |
| `Arenas.Teardown` | folly/memory/Arena-inl.h:112-118 | the loop ends with no block left, and the allocator's log gains exactly the releases of the whole list, front to back |
| `ArenaInvariants.AllocateSlowKeepsValid` | folly/memory/Arena-inl.h:55-88 | a successful slow allocation keeps the arena invariant, and its span is disjoint from every span handed out before |
| `ArenaInvariants.AllocateKeepsValid` | folly/memory/Arena-inl.h:68-83 | a successful allocation on either path keeps the arena invariant with its new span recorded among the issued spans, so that span is disjoint from every span handed out before |
| `ArenaInvariants.SpliceKeepsValid` | folly/memory/Arena-inl.h:102-105 | putting another valid arena's blocks in front of ours and adding its total keeps our invariant, with both arenas' spans owned, provided the two lists share no block |
| `ArenaInvariants.MergeKeepsValid` | folly/memory/Arena-inl.h:101-107 | merging two valid arenas with distinct blocks gives a valid receiver that owns the spans of both, and a valid, empty drained arena |
| `ArenaInvariants.DrainedArenaAllocatesFresh` | folly/memory/Arena-inl.h:102-104 | after a merge, the drained arena's next allocation lands in a brand-new block, outside every block and span the receiver owns |
| `ArenaInvariants.AllocateKeepsFrom` | folly/memory/Arena-inl.h:27-35 | an allocation on either path adds only blocks whose ids are at or after the allocator's next id, and the next id never moves back; hence a lower bound n <= nextId on the arena's block ids is kept |
| `ArenaInvariants.AllocateAllKeepsFrom` | folly/memory/Arena-inl.h:27-35 | the same for a whole run of allocations: every block the run adds has an id at or after the allocator's starting next id, the next id never moves back, and a lower bound n <= nextId on block ids is kept |
| `ArenaInvariants.DrainedRunNeverMeetsReceiver` | folly/memory/Arena-inl.h:101-107 | after a merge, every span of any successful run of allocations on the drained arena is disjoint from every span the receiver owns, and the run's spans are pairwise disjoint |
| `ArenaInvariants.AllocateAll` | folly/memory/Arena-inl.h:55-88 | a run of allocations, stopping at the first failure, returns one address per request |
| `ArenaInvariants.AllocateAllKeepsValid` | folly/memory/Arena-inl.h:68-87 | a run of allocations keeps the invariant, with every span it hands out recorded |
| `ArenaInvariants.AllocationsNeverOverlap` | folly/memory/Arena-inl.h:68-87 | from a new arena, the spans of any successful run of allocations are pairwise disjoint, each exactly the requested size and inside an owned block |
| `SizeLimits.OverLimitWhileWithin` | folly/memory/Arena-inl.h:63-66 | while the total is within the limit, the wrapped check refuses exactly the requests that would carry the total past the limit |
| `SizeLimits.NoLimitOnlyOverflows` | folly/memory/Arena-inl.h:59-66 | with no limit configured, the slow path fails only on overflow |
| `SizeLimits.SlowPathGrowth` | folly/memory/Arena-inl.h:85-86 | a successful slow allocation adds the checked size plus, for a normal block, the hint's slack |
| `SizeLimits.UnroundedSlowPathKeepsLimit` | folly/memory/Arena-inl.h:63-86 | when the hint does not round the normal block, a successful slow allocation keeps the total within the limit |
| `SizeLimits.SlowPathOvershootBounded` | folly/memory/Arena-inl.h:63-86 | from within the limit, a successful slow allocation overshoots it by at most the hint's slack on a normal block |
| `SizeLimits.RoundingOvershootsLimit` | folly/memory/Arena-inl.h:28-31 | with limit 40, minimum block 16 and a hint rounding to 64, a one-byte request succeeds and leaves the total at 64, past the limit |
| `SizeLimits.OvershootDisablesLimitCheck` | folly/memory/Arena-inl.h:63-66 | once the total exceeds the limit, every representable request below the wrapped difference passes the limit check and succeeds |
| `SizeLimits.LimitStopsBindingAfterOvershoot` | folly/memory/Arena-inl.h:63-86 | continuing that example, a 1000-byte request is then served, bringing the total to 1072 against a limit of 40 |
| `SizeLimits.MergeCarriesPastLimit` | folly/memory/Arena-inl.h:101-107 | with limit 40 and a hint that never rounds, an arena that has drawn 24 bytes merges in an arena that drew one 1008-byte block from the same allocator; the merged arena is valid, ends at 1032, and then serves a 5000-byte request |
| `TeardownAccounting.TeardownReleasesEachBlockOnce` | folly/memory/Arena-inl.h:112-118 | tearing down a valid arena makes one release call per block; each of its blocks is released exactly once, no other block is released, and every released block has its acquisition logged |
| `AllocationPaths.FastPathContiguous` | folly/memory/Arena-inl.h:76-83 | once the cursor set at :81-82 has room for two requests together, the abstract fast path bumps it to serve them back to back in that block, without calling the backing allocator |
| `AllocationPaths.NeverServedFromOversized` | folly/memory/Arena-inl.h:68-75 | in a valid arena no request, on either path, is served from an oversized block acquired earlier, that is one already in the arena's list |
| `AllocationPaths.LargestRequestOverflows` | folly/memory/Arena-inl.h:59-62 | a request of the largest size_t fails with the overflow error instead of wrapping |

## Left out

- The fast path lives in `folly/memory/Arena.h`, which is not part of this model. `Arenas.Allocate` is an abstract fast path: it bumps only when a cursor exists and the request fits. It does not model alignment rounding, the `bytesUsed_` counter, or what a null cursor does with a zero-byte request.
- Real pointers, raw memory, placement `new` and the explicit `~Block()` call. Addresses are (block id, offset) pairs, and memory contents are not modelled.
- The body of `ArenaAllocatorTraits::goodSize` and `std::allocator_traits`. The hint is an arbitrary function assumed to satisfy `RoundsUp`, and the backing allocator is a fresh-id source with a call log.
- Backing-allocator out-of-memory and the exception machinery (`throw_exception`, `std::bad_alloc`). The allocator never fails in the model, and the two checked failures are `Result` errors.
- The value of the `kNoSizeLimit` sentinel, which is defined in `Arena.h`. The limit is a datatype with an explicit `NoLimit` case.
- Whether `Limit(0)` can arise. `Arena.h`, where the limit is configured, is not part of this model. The model admits `Limit(0)`. It refuses every request while the arena's total is 0, since the check at :64 then refuses any positive size. After another arena is merged into it, the total is past the limit and the check at :64 wraps, as in the overshoot case.
- Wrap-around of `totalAllocatedSize_` at 2^64. The model's total is unbounded, because reaching the wrap would take more than 2^64 bytes from the backing allocator. The wrapped subtraction in the limit check is modelled.
- The intrusive `slist` link mechanics, and the redundant `other.blocks_.clear()` after the splice. The list is a sequence.
- `ArenaInvariants.AllocateAll` stops at the first failing request and drops the earlier addresses. In the real code those earlier allocations stay valid. The function exists to state the non-overlap of whole runs.
- The exact value of `sizeof(Block)`. `Block` is declared in `Arena.h`, which is not part of this model. `HeaderSize` is 8 on the assumption of an unpadded one-pointer `Block`. The general lemmas hold for that constant as written, and the example numbers in `SizeLimits.RoundingOvershootsLimit` and `SizeLimits.LimitStopsBindingAfterOvershoot` (24, 64, 1008, 1072) depend on it.
- Thread safety: the arena is unsynchronised and single-owner.

=== FILE: arena.dfy ===
/**
 * The arena of folly/memory/Arena-inl.h: a list of blocks, a bump cursor into
 * the block currently serving small requests, a running count of the bytes
 * drawn from the backing allocator, and an optional ceiling on that count.
 */
module Arenas {
  import opened Outcomes
  import opened Sizes
  import opened Backing

  /** The arena's size ceiling, or the sentinel that switches the check off. */
  datatype SizeLimit = NoLimit | Limit(bytes: SizeT)

  /**
   * `ptr_`/`end_` while they are non-null: both point into the payload of block
   * `block`, at byte offsets `ptr` and `end` from its start.
   */
  datatype Cursor = Cursor(block: BlockId, ptr: nat, end: nat)

  /** An address handed to a client: a payload offset inside a block. */
  datatype Addr = Addr(block: BlockId, offset: nat)

  datatype Arena = Arena(
    blocks: seq<Block>,
    cursor: Option<Cursor>,
    total: nat,
    sizeLimit: SizeLimit,
    minBlockSize: SizeT)

  /** The two `std::bad_alloc` throws of the slow path. */
  datatype ArenaError = SizeOverflow | SizeLimitExceeded

  /** A successful allocation: the arena and allocator afterwards and the address returned. */
  datatype Allocation = Allocation(arena: Arena, alloc: Allocator, addr: Addr)

  /** A successful slow-path allocation, also naming the block it acquired. */
  datatype Grown = Grown(arena: Arena, alloc: Allocator, addr: Addr, block: Block)

  /** The result of `merge`: the receiving arena and the arena that was drained. */
  datatype Merged = Merged(into: Arena, drained: Arena)

  /** A freshly constructed arena: no blocks, null cursor, nothing drawn. */
  function NewArena(minBlockSize: SizeT, sizeLimit: SizeLimit): Arena {
    Arena([], None, 0, sizeLimit, minBlockSize)
  }

  /** Sum of the bytes drawn from the backing allocator for `bs`. */
  function TotalFootprint(bs: seq<Block>): nat {
    if bs == [] then 0 else bs[0].Footprint() + TotalFootprint(bs[1..])
  }

  /** True when the limit check of the slow path refuses a request of `allocSize` bytes. */
  predicate OverLimit(a: Arena, allocSize: nat) {
    a.sizeLimit.Limit? && allocSize > WrapSub(a.sizeLimit.bytes, a.total)
  }

  /**
   * `Arena::allocateSlow`. Either fails before touching anything, or acquires
   * exactly one block: an oversized request gets a block of exactly its size at
   * the back of the list and leaves the cursor alone; any other request gets a
   * slack-rounded block of the minimum size at the front, carved from its start.
   */
  function AllocateSlow(a: Arena, alloc: Allocator, goodSize: GoodSize, size: SizeT)
    : (r: Result<Grown, ArenaError>)
    requires RoundsUp(goodSize)
    ensures r == Failure(SizeOverflow) <==> Max(size, a.minBlockSize) + HeaderSize > SizeMax
    ensures r == Failure(SizeLimitExceeded) <==>
              Max(size, a.minBlockSize) + HeaderSize <= SizeMax && OverLimit(a, Max(size, a.minBlockSize) + HeaderSize)
    ensures r.Success? ==>
              var g := r.value;
              && g.block.id == alloc.nextId
              && size <= g.block.usable
              && g.addr == Addr(g.block.id, 0)
              && g.arena.total == a.total + g.block.Footprint()
              && g.arena.sizeLimit == a.sizeLimit
              && g.arena.minBlockSize == a.minBlockSize
              && g.alloc.nextId == alloc.nextId + 1
              && g.alloc.events == alloc.events + [Acquired(g.block.id, g.block.Footprint())]
    ensures r.Success? && size > a.minBlockSize ==>
              var g := r.value;
              && g.block == Block(alloc.nextId, size, Oversized)
              && g.arena.blocks == a.blocks + [g.block]
              && g.arena.cursor == a.cursor
    ensures r.Success? && size <= a.minBlockSize ==>
              var g := r.value;
              && g.block.kind == Normal
              && a.minBlockSize <= g.block.usable
              && g.block.Footprint() == goodSize(a.minBlockSize + HeaderSize)
              && g.arena.blocks == [g.block] + a.blocks
              && g.arena.cursor == Some(Cursor(g.block.id, size, g.block.usable))
              && size <= g.block.usable
  {
    match CheckedAdd(Max(size, a.minBlockSize), HeaderSize)
    case None => Failure(SizeOverflow)
    case Some(allocSize) =>
      if OverLimit(a, allocSize) then
        Failure(SizeLimitExceeded)
      else if size > a.minBlockSize then
        var p := AcquireBlock(alloc, goodSize, size, false, Oversized);
        var b := p.block;
        Success(Grown(a.(blocks := a.blocks + [b], total := a.total + b.Footprint()), p.alloc, Addr(b.id, 0), b))
      else
        var p := AcquireBlock(alloc, goodSize, a.minBlockSize, true, Normal);
        var b := p.block;
        Success(Grown(
          a.(blocks := [b] + a.blocks,
             cursor := Some(Cursor(b.id, size, b.usable)),
             total := a.total + b.Footprint()),
          p.alloc, Addr(b.id, 0), b))
  }

  /** True when the bump cursor alone can serve `size` bytes. */
  predicate FitsCursor(a: Arena, size: nat) {
    a.cursor.Some? && a.cursor.value.ptr + size <= a.cursor.value.end
  }

  /**
   * `Arena::allocate`, with the fast path of the header reduced to its essence:
   * bump the cursor when the request fits before `end`, else take the slow path.
   */
  function Allocate(a: Arena, alloc: Allocator, goodSize: GoodSize, size: SizeT)
    : (r: Result<Allocation, ArenaError>)
    requires RoundsUp(goodSize)
    ensures FitsCursor(a, size) ==>
              var c := a.cursor.value;
              && r.Success?
              && r.value.addr == Addr(c.block, c.ptr)
              && r.value.arena == a.(cursor := Some(Cursor(c.block, c.ptr + size, c.end)))
              && r.value.alloc == alloc
    ensures !FitsCursor(a, size) ==>
              match AllocateSlow(a, alloc, goodSize, size)
              case Failure(e) => r == Failure(e)
              case Success(g) => r == Success(Allocation(g.arena, g.alloc, g.addr))
  {
    if FitsCursor(a, size) then
      var c := a.cursor.value;
      Success(Allocation(a.(cursor := Some(c.(ptr := c.ptr + size))), alloc, Addr(c.block, c.ptr)))
    else
      match AllocateSlow(a, alloc, goodSize, size)
      case Failure(e) => Failure(e)
      case Success(g) => Success(Allocation(g.arena, g.alloc, g.addr))
  }

  /**
   * `Arena::merge`: splice every block of `other` in front of this arena's
   * blocks, add its byte count to ours, and leave `other` as if newly built.
   */
  function Merge(a: Arena, other: Arena): (r: Merged)
    ensures |r.into.blocks| == |other.blocks| + |a.blocks|
    ensures r.into.blocks[..|other.blocks|] == other.blocks
    ensures r.into.blocks[|other.blocks|..] == a.blocks
    ensures multiset(r.into.blocks) == multiset(a.blocks) + multiset(other.blocks)
    ensures r.into.total == a.total + other.total
    ensures r.into.cursor == a.cursor
    ensures r.into.sizeLimit == a.sizeLimit && r.into.minBlockSize == a.minBlockSize
    ensures r.drained == NewArena(other.minBlockSize, other.sizeLimit)
  {
    Merged(
      a.(blocks := other.blocks + a.blocks, total := a.total + other.total),
      other.(blocks := [], cursor := None, total := 0))
  }

  /** The release calls that disposing `bs` front to back makes. */
  function Releases(bs: seq<Block>): (es: seq<Event>)
    ensures |es| == |bs|
    ensures forall i :: 0 <= i < |bs| ==> es[i] == Released(bs[i].id, 1)
  {
    if bs == [] then [] else [Released(bs[0].id, 1)] + Releases(bs[1..])
  }

  /**
   * `Arena::~Arena`: pop and dispose blocks from the front until the list is
   * empty. Returns the (empty) list left over and the allocator afterwards.
   */
  method Teardown(a: Arena, alloc: Allocator) returns (left: seq<Block>, alloc': Allocator)
    ensures left == []
    ensures alloc'.nextId == alloc.nextId
    ensures alloc'.events == alloc.events + Releases(a.blocks)
  {
    left := a.blocks;
    alloc' := alloc;
    while left != []
      invariant |left| <= |a.blocks|
      invariant left == a.blocks[|a.blocks| - |left|..]
      invariant alloc'.nextId == alloc.nextId
      invariant alloc'.events == alloc.events + Releases(a.blocks[..|a.blocks| - |left|])
      decreases |left|
    {
      ReleasesSnoc(a.blocks[..|a.blocks| - |left|], left[0]);
      assert a.blocks[..|a.blocks| - |left|] + [left[0]] == a.blocks[..|a.blocks| - |left| + 1];
      alloc' := ReleaseBlock(alloc', left[0]);
      left := left[1..];
    }
    assert a.blocks[..|a.blocks|] == a.blocks;
  }

  /** Disposing one more block appends exactly its release. */
  lemma ReleasesSnoc(bs: seq<Block>, b: Block)
    ensures Releases(bs + [b]) == Releases(bs) + [Released(b.id, 1)]
  {
  }
}

=== FILE: backing.dfy ===
/**
 * Blocks and the backing allocator they come from (`Arena::Block` in
 * folly/memory/Arena-inl.h). Raw memory is abstract: a block is known by the
 * identifier the allocator handed out and by the number of payload bytes that
 * follow its list-link header.
 */
module Backing {
  import opened Sizes

  /** `sizeof(Block)`, taken as a single unpadded intrusive-list link: one pointer on a 64-bit target. */
  const HeaderSize: nat := 8

  type BlockId = nat

  /** Why a block was acquired: to back bump allocation, or for one oversized request. */
  datatype BlockKind = Normal | Oversized

  /** A block: its identity, the usable payload length after the header, and its purpose. */
  datatype Block = Block(id: BlockId, usable: nat, kind: BlockKind) {
    /** Bytes actually drawn from the backing allocator for this block. */
    function Footprint(): nat {
      usable + HeaderSize
    }
  }

  /** One call into the backing allocator. */
  datatype Event = Acquired(id: BlockId, bytes: nat) | Released(id: BlockId, count: nat)

  /**
   * The backing allocator as the arena sees it: a source of fresh block
   * identifiers and a log of the calls made to it.
   */
  datatype Allocator = Allocator(nextId: BlockId, events: seq<Event>)

  /** The pair `Block::allocate` returns, together with the allocator after the call. */
  datatype Acquisition = Acquisition(block: Block, alloc: Allocator)

  /**
   * `Block::allocate`: request header plus `size` bytes, first rounded through the
   * good-size hint when slack is allowed, and report the usable length.
   */
  function AcquireBlock(alloc: Allocator, goodSize: GoodSize, size: SizeT, allowSlack: bool, kind: BlockKind)
    : (r: Acquisition)
    requires HeaderSize + size <= SizeMax
    requires RoundsUp(goodSize)
    ensures r.block.id == alloc.nextId && r.block.kind == kind
    ensures r.block.Footprint() == (if allowSlack then goodSize(HeaderSize + size) else HeaderSize + size)
    ensures r.block.Footprint() <= SizeMax
    ensures size <= r.block.usable
    ensures !allowSlack ==> r.block.usable == size
    ensures r.alloc.nextId == alloc.nextId + 1
    ensures r.alloc.events == alloc.events + [Acquired(r.block.id, r.block.Footprint())]
  {
    var allocSize := if allowSlack then goodSize(HeaderSize + size) else HeaderSize + size;
    var id := alloc.nextId;
    Acquisition(Block(id, allocSize - HeaderSize, kind), Allocator(id + 1, alloc.events + [Acquired(id, allocSize)]))
  }

  /**
   * `Block::deallocate`: hand the block back to the backing allocator. The
   * count passed is 1, not the number of bytes acquired.
   */
  function ReleaseBlock(alloc: Allocator, b: Block): (r: Allocator)
    ensures r.nextId == alloc.nextId
    ensures |r.events| == |alloc.events| + 1
    ensures r.events[..|alloc.events|] == alloc.events
    ensures r.events[|alloc.events|] == Released(b.id, 1)
  {
    Allocator(alloc.nextId, alloc.events + [Released(b.id, 1)])
  }
}

=== FILE: invariants.dfy ===
/**
 * What stays true of an arena between public operations, and why allocations
 * never overlap: every address handed out, paired with its request size, is a
 * span inside one block of the list, the spans are pairwise disjoint, and the
 * cursor only ever points past the spans already carved from its block.
 */
module ArenaInvariants {
  import opened Outcomes
  import opened Sizes
  import opened Backing
  import opened Arenas

  /** The bytes `[offset, offset + size)` of the payload of block `block`. */
  datatype Span = Span(block: BlockId, offset: nat, size: nat)

  function SpanOf(addr: Addr, size: nat): Span {
    Span(addr.block, addr.offset, size)
  }

  predicate Disjoint(s: Span, t: Span) {
    s.block != t.block || s.offset + s.size <= t.offset || t.offset + t.size <= s.offset
  }

  predicate PairwiseDisjoint(ss: seq<Span>) {
    forall i, j :: 0 <= i < j < |ss| ==> Disjoint(ss[i], ss[j])
  }

  predicate DistinctIds(bs: seq<Block>) {
    forall i, j :: 0 <= i < j < |bs| ==> bs[i].id != bs[j].id
  }

  /** `s` lies within the payload of some block of `bs`. */
  predicate Inside(bs: seq<Block>, s: Span) {
    exists b :: b in bs && b.id == s.block && s.offset + s.size <= b.usable
  }

  /** `ptr_ <= end_`, both inside a normal block of the list, and past every span already carved there. */
  predicate CursorValid(bs: seq<Block>, c: Cursor, issued: seq<Span>) {
    && c.ptr <= c.end
    && (exists b :: b in bs && b.id == c.block && b.kind == Normal && c.end <= b.usable)
    && (forall s :: s in issued && s.block == c.block ==> s.offset + s.size <= c.ptr)
  }

  /**
   * The arena invariant, relative to the backing allocator it draws from and to
   * the spans it has handed out so far.
   */
  predicate Valid(a: Arena, alloc: Allocator, issued: seq<Span>) {
    && DistinctIds(a.blocks)
    && (forall b :: b in a.blocks ==> b.id < alloc.nextId)
    && (forall b :: b in a.blocks ==> Acquired(b.id, b.Footprint()) in alloc.events)
    && a.total == TotalFootprint(a.blocks)
    && (forall s :: s in issued ==> Inside(a.blocks, s))
    && PairwiseDisjoint(issued)
    && (a.cursor.Some? ==> CursorValid(a.blocks, a.cursor.value, issued))
  }

  /** A new arena is valid against any allocator, having handed out nothing. */
  lemma NewArenaValid(minBlockSize: SizeT, sizeLimit: SizeLimit, alloc: Allocator)
    ensures Valid(NewArena(minBlockSize, sizeLimit), alloc, [])
  {
  }

  /** The byte count of a concatenation is the sum of the parts' counts. */
  lemma {:induction false} TotalFootprintAppend(xs: seq<Block>, ys: seq<Block>)
    ensures TotalFootprint(xs + ys) == TotalFootprint(xs) + TotalFootprint(ys)
  {
    if xs != [] {
      assert (xs + ys)[1..] == xs[1..] + ys;
      TotalFootprintAppend(xs[1..], ys);
    } else {
      assert xs + ys == ys;
    }
  }

  /** Every span inside a valid arena lies in a block older than the next fresh identifier. */
  lemma IssuedBelowNextId(a: Arena, alloc: Allocator, issued: seq<Span>, s: Span)
    requires Valid(a, alloc, issued)
    requires s in issued
    ensures s.block < alloc.nextId
  {
  }

  /**
   * `allocateSlow` keeps the invariant, and the span it hands out (the new
   * block's first `size` bytes) is disjoint from every earlier one.
   */
  lemma AllocateSlowKeepsValid(a: Arena, alloc: Allocator, goodSize: GoodSize, size: SizeT, issued: seq<Span>)
    requires RoundsUp(goodSize)
    requires Valid(a, alloc, issued)
    requires AllocateSlow(a, alloc, goodSize, size).Success?
    ensures var g := AllocateSlow(a, alloc, goodSize, size).value;
            Valid(g.arena, g.alloc, issued + [SpanOf(g.addr, size)])
  {
    var g := AllocateSlow(a, alloc, goodSize, size).value;
    var nb := g.block;
    var s := SpanOf(g.addr, size);
    var issued' := issued + [s];
    forall t | t in issued
      ensures t.block != nb.id
    {
      IssuedBelowNextId(a, alloc, issued, t);
    }
    if size > a.minBlockSize {
      TotalFootprintAppend(a.blocks, [nb]);
      assert TotalFootprint([nb]) == nb.Footprint();
    } else {
      assert ([nb] + a.blocks)[1..] == a.blocks;
    }
    assert nb in g.arena.blocks;
    forall t | t in issued'
      ensures Inside(g.arena.blocks, t)
    {
      if t != s {
        var b :| b in a.blocks && b.id == t.block && t.offset + t.size <= b.usable;
        assert b in g.arena.blocks;
      }
    }
    forall i, j | 0 <= i < j < |g.arena.blocks|
      ensures g.arena.blocks[i].id != g.arena.blocks[j].id
    {
      var bs := g.arena.blocks;
      if bs[i] == nb || bs[j] == nb {
        if size > a.minBlockSize {
          assert j == |a.blocks| && bs[i] == a.blocks[i];
        } else {
          assert i == 0 && bs[j] == a.blocks[j - 1];
        }
      } else if size > a.minBlockSize {
        assert bs[i] == a.blocks[i] && bs[j] == a.blocks[j];
      } else {
        assert bs[i] == a.blocks[i - 1] && bs[j] == a.blocks[j - 1];
      }
    }
    if g.arena.cursor.Some? {
      var c := g.arena.cursor.value;
      if size > a.minBlockSize {
        var b :| b in a.blocks && b.id == c.block && b.kind == Normal && c.end <= b.usable;
        assert b in g.arena.blocks;
        assert c.block != nb.id;
      } else {
        assert c.block == nb.id;
      }
    }
  }

  /**
   * `allocate` keeps the invariant; in particular the span it hands out is
   * disjoint from every earlier one, whichever path served it.
   */
  lemma AllocateKeepsValid(a: Arena, alloc: Allocator, goodSize: GoodSize, size: SizeT, issued: seq<Span>)
    requires RoundsUp(goodSize)
    requires Valid(a, alloc, issued)
    requires Allocate(a, alloc, goodSize, size).Success?
    ensures var x := Allocate(a, alloc, goodSize, size).value;
            Valid(x.arena, x.alloc, issued + [SpanOf(x.addr, size)])
  {
    if FitsCursor(a, size) {
      var x := Allocate(a, alloc, goodSize, size).value;
      var c := a.cursor.value;
      var s := SpanOf(x.addr, size);
      var b :| b in a.blocks && b.id == c.block && b.kind == Normal && c.end <= b.usable;
      assert Inside(a.blocks, s);
    } else {
      AllocateSlowKeepsValid(a, alloc, goodSize, size, issued);
    }
  }

  /** Block lists with no identifier in common concatenate to one without repeats. */
  lemma DistinctIdsConcat(xs: seq<Block>, ys: seq<Block>)
    requires DistinctIds(xs) && DistinctIds(ys)
    requires forall x, y :: x in xs && y in ys ==> x.id != y.id
    ensures DistinctIds(xs + ys)
  {
  }

  /** Spans inside two block lists with no identifier in common never meet. */
  lemma DisjointAcross(xs: seq<Block>, ys: seq<Block>, ss: seq<Span>, ts: seq<Span>)
    requires forall x, y :: x in xs && y in ys ==> x.id != y.id
    requires forall s :: s in ss ==> Inside(xs, s)
    requires forall t :: t in ts ==> Inside(ys, t)
    requires PairwiseDisjoint(ss) && PairwiseDisjoint(ts)
    ensures PairwiseDisjoint(ss + ts)
  {
    var all := ss + ts;
    forall i, j | 0 <= i < j < |all|
      ensures Disjoint(all[i], all[j])
    {
      var n := |ss|;
      if j < n {
        assert all[i] == ss[i] && all[j] == ss[j];
      } else if n <= i {
        assert all[i] == ts[i - n] && all[j] == ts[j - n];
      } else {
        var s, t := all[i], all[j];
        assert s in ss && t in ts;
        var bx :| bx in xs && bx.id == s.block && s.offset + s.size <= bx.usable;
        var bt :| bt in ys && bt.id == t.block && t.offset + t.size <= bt.usable;
      }
    }
  }

  /** Spans inside the parts of a concatenated block list stay inside the whole. */
  lemma InsideConcat(xs: seq<Block>, ys: seq<Block>, ss: seq<Span>, ts: seq<Span>)
    requires forall s :: s in ss ==> Inside(xs, s)
    requires forall t :: t in ts ==> Inside(ys, t)
    ensures forall u :: u in ss + ts ==> Inside(xs + ys, u)
  {
  }

  /** The receiver's cursor stays valid when blocks it does not point into are spliced in front. */
  lemma CursorSurvivesSplice(xs: seq<Block>, ys: seq<Block>, ss: seq<Span>, ts: seq<Span>, c: Cursor)
    requires forall x, y :: x in xs && y in ys ==> x.id != y.id
    requires forall s :: s in ss ==> Inside(xs, s)
    requires CursorValid(ys, c, ts)
    ensures CursorValid(xs + ys, c, ss + ts)
  {
  }

  /** The receiver after a splice: the other arena's blocks in front, the totals added. */
  lemma SpliceKeepsValid(a: Arena, other: Arena, alloc: Allocator, issuedA: seq<Span>, issuedO: seq<Span>)
    requires Valid(a, alloc, issuedA)
    requires Valid(other, alloc, issuedO)
    requires forall x, y :: x in a.blocks && y in other.blocks ==> x.id != y.id
    ensures Valid(a.(blocks := other.blocks + a.blocks, total := a.total + other.total), alloc, issuedO + issuedA)
  {
    var bs := other.blocks + a.blocks;
    var all := issuedO + issuedA;
    assert TotalFootprint(bs) == a.total + other.total by {
      TotalFootprintAppend(other.blocks, a.blocks);
    }
    assert DistinctIds(bs) by {
      DistinctIdsConcat(other.blocks, a.blocks);
    }
    assert PairwiseDisjoint(all) by {
      DisjointAcross(other.blocks, a.blocks, issuedO, issuedA);
    }
    assert forall u :: u in all ==> Inside(bs, u) by {
      InsideConcat(other.blocks, a.blocks, issuedO, issuedA);
    }
    assert a.cursor.Some? ==> CursorValid(bs, a.cursor.value, all) by {
      if a.cursor.Some? {
        CursorSurvivesSplice(other.blocks, a.blocks, issuedO, issuedA, a.cursor.value);
      }
    }
  }

  /**
   * Merging two valid arenas drawn from one allocator yields a valid receiver
   * owning both arenas' spans and a drained arena that owns nothing. That the
   * two lists share no block is assumed, because two live arenas never hold
   * the same memory.
   */
  lemma MergeKeepsValid(a: Arena, other: Arena, alloc: Allocator, issuedA: seq<Span>, issuedO: seq<Span>)
    requires Valid(a, alloc, issuedA)
    requires Valid(other, alloc, issuedO)
    requires forall x, y :: x in a.blocks && y in other.blocks ==> x.id != y.id
    ensures Valid(Merge(a, other).into, alloc, issuedO + issuedA)
    ensures Valid(Merge(a, other).drained, alloc, [])
  {
    SpliceKeepsValid(a, other, alloc, issuedA, issuedO);
  }

  /**
   * After a merge the drained arena starts over: its next allocation lands in a
   * brand-new block, outside every span the receiving arena now owns.
   */
  lemma DrainedArenaAllocatesFresh(a: Arena, other: Arena, alloc: Allocator, goodSize: GoodSize,
                                   size: SizeT, issued: seq<Span>)
    requires RoundsUp(goodSize)
    requires Valid(Merge(a, other).into, alloc, issued)
    requires Allocate(Merge(a, other).drained, alloc, goodSize, size).Success?
    ensures var x := Allocate(Merge(a, other).drained, alloc, goodSize, size).value;
            && x.addr.block == alloc.nextId
            && (forall b :: b in Merge(a, other).into.blocks ==> b.id != x.addr.block)
            && (forall t :: t in issued ==> Disjoint(t, SpanOf(x.addr, size)))
  {
  }

  /** A batch of successful allocations: the state afterwards and the addresses, in order. */
  datatype Batch = Batch(arena: Arena, alloc: Allocator, addrs: seq<Addr>)

  /** Serve `sizes` one after another, stopping at the first failure. */
  function AllocateAll(a: Arena, alloc: Allocator, goodSize: GoodSize, sizes: seq<SizeT>)
    : (r: Result<Batch, ArenaError>)
    requires RoundsUp(goodSize)
    ensures r.Success? ==> |r.value.addrs| == |sizes|
    decreases |sizes|
  {
    if sizes == [] then Success(Batch(a, alloc, []))
    else
      match Allocate(a, alloc, goodSize, sizes[0])
      case Failure(e) => Failure(e)
      case Success(x) =>
        match AllocateAll(x.arena, x.alloc, goodSize, sizes[1..])
        case Failure(e) => Failure(e)
        case Success(rest) => Success(Batch(rest.arena, rest.alloc, [x.addr] + rest.addrs))
  }

  /** The spans of a batch: each address with the size that was requested for it. */
  function Spans(addrs: seq<Addr>, sizes: seq<SizeT>): (ss: seq<Span>)
    requires |addrs| == |sizes|
    ensures |ss| == |addrs|
    ensures forall i :: 0 <= i < |ss| ==> ss[i] == SpanOf(addrs[i], sizes[i])
  {
    seq(|addrs|, i requires 0 <= i < |addrs| => SpanOf(addrs[i], sizes[i]))
  }

  /** Recording a batch's first span and then the rest's is recording the whole batch. */
  lemma SpansCons(issued: seq<Span>, x: Addr, addrs: seq<Addr>, sizes: seq<SizeT>)
    requires |addrs| + 1 == |sizes|
    ensures issued + [SpanOf(x, sizes[0])] + Spans(addrs, sizes[1..]) == issued + Spans([x] + addrs, sizes)
  {
    var lhs := issued + [SpanOf(x, sizes[0])] + Spans(addrs, sizes[1..]);
    var rhs := issued + Spans([x] + addrs, sizes);
    assert |lhs| == |rhs|;
    forall i | 0 <= i < |lhs|
      ensures lhs[i] == rhs[i]
    {
      var n := |issued|;
      if i == n {
        assert rhs[i] == Spans([x] + addrs, sizes)[0];
      } else if i > n {
        assert lhs[i] == Spans(addrs, sizes[1..])[i - n - 1];
        assert rhs[i] == Spans([x] + addrs, sizes)[i - n];
      }
    }
  }

  /** A whole batch keeps the invariant, with every new span recorded as issued. */
  lemma {:induction false} AllocateAllKeepsValid(a: Arena, alloc: Allocator, goodSize: GoodSize,
                                                 sizes: seq<SizeT>, issued: seq<Span>)
    requires RoundsUp(goodSize)
    requires Valid(a, alloc, issued)
    requires AllocateAll(a, alloc, goodSize, sizes).Success?
    ensures var r := AllocateAll(a, alloc, goodSize, sizes).value;
            Valid(r.arena, r.alloc, issued + Spans(r.addrs, sizes))
    decreases |sizes|
  {
    var r := AllocateAll(a, alloc, goodSize, sizes).value;
    if sizes == [] {
      assert issued + Spans(r.addrs, sizes) == issued;
    } else {
      var x := Allocate(a, alloc, goodSize, sizes[0]).value;
      var s0 := SpanOf(x.addr, sizes[0]);
      AllocateKeepsValid(a, alloc, goodSize, sizes[0], issued);
      var rest := AllocateAll(x.arena, x.alloc, goodSize, sizes[1..]).value;
      AllocateAllKeepsValid(x.arena, x.alloc, goodSize, sizes[1..], issued + [s0]);
      assert r == Batch(rest.arena, rest.alloc, [x.addr] + rest.addrs);
      SpansCons(issued, x.addr, rest.addrs, sizes);
      assert issued + [s0] + Spans(rest.addrs, sizes[1..]) == issued + Spans(r.addrs, sizes);
    }
  }

  /**
   * Starting from a new arena, any run of successful allocations hands out
   * pairwise disjoint spans, each of exactly the requested size and each inside
   * a block the arena owns.
   */
  lemma AllocationsNeverOverlap(minBlockSize: SizeT, sizeLimit: SizeLimit, alloc: Allocator,
                                goodSize: GoodSize, sizes: seq<SizeT>)
    requires RoundsUp(goodSize)
    requires AllocateAll(NewArena(minBlockSize, sizeLimit), alloc, goodSize, sizes).Success?
    ensures var r := AllocateAll(NewArena(minBlockSize, sizeLimit), alloc, goodSize, sizes).value;
            && PairwiseDisjoint(Spans(r.addrs, sizes))
            && (forall i :: 0 <= i < |sizes| ==> Inside(r.arena.blocks, SpanOf(r.addrs[i], sizes[i])))
  {
    var r := AllocateAll(NewArena(minBlockSize, sizeLimit), alloc, goodSize, sizes).value;
    NewArenaValid(minBlockSize, sizeLimit, alloc);
    AllocateAllKeepsValid(NewArena(minBlockSize, sizeLimit), alloc, goodSize, sizes, []);
    assert [] + Spans(r.addrs, sizes) == Spans(r.addrs, sizes);
    var ss := Spans(r.addrs, sizes);
    forall i | 0 <= i < |sizes|
      ensures Inside(r.arena.blocks, SpanOf(r.addrs[i], sizes[i]))
    {
      assert ss[i] in ss;
    }
  }

  /** Every block of `bs` was handed out at or after identifier `n`. */
  predicate AllFrom(bs: seq<Block>, n: BlockId) {
    forall b :: b in bs ==> n <= b.id
  }

  /**
   * An allocation only ever adds blocks with identifiers at or after the
   * allocator's next one, and never moves that next identifier back; so a lower
   * bound `n <= nextId` on the arena's block identifiers is kept.
   */
  lemma AllocateKeepsFrom(a: Arena, alloc: Allocator, goodSize: GoodSize, size: SizeT, n: BlockId)
    requires RoundsUp(goodSize)
    requires AllFrom(a.blocks, n) && n <= alloc.nextId
    requires Allocate(a, alloc, goodSize, size).Success?
    ensures var x := Allocate(a, alloc, goodSize, size).value;
            && alloc.nextId <= x.alloc.nextId
            && (forall b :: b in x.arena.blocks && b !in a.blocks ==> alloc.nextId <= b.id)
            && AllFrom(x.arena.blocks, n) && n <= x.alloc.nextId
  {
  }

  /** The same for a whole run of allocations. */
  lemma {:induction false} AllocateAllKeepsFrom(a: Arena, alloc: Allocator, goodSize: GoodSize,
                                                sizes: seq<SizeT>, n: BlockId)
    requires RoundsUp(goodSize)
    requires AllFrom(a.blocks, n) && n <= alloc.nextId
    requires AllocateAll(a, alloc, goodSize, sizes).Success?
    ensures var r := AllocateAll(a, alloc, goodSize, sizes).value;
            && alloc.nextId <= r.alloc.nextId
            && (forall b :: b in r.arena.blocks && b !in a.blocks ==> alloc.nextId <= b.id)
            && AllFrom(r.arena.blocks, n) && n <= r.alloc.nextId
    decreases |sizes|
  {
    if sizes != [] {
      var x := Allocate(a, alloc, goodSize, sizes[0]).value;
      AllocateKeepsFrom(a, alloc, goodSize, sizes[0], n);
      AllocateAllKeepsFrom(x.arena, x.alloc, goodSize, sizes[1..], n);
    }
  }

  /**
   * After a merge, no allocation the drained arena ever makes, over a whole run
   * of requests, overlaps a span the receiver owns; and the run's own spans are
   * pairwise disjoint.
   */
  lemma DrainedRunNeverMeetsReceiver(a: Arena, other: Arena, alloc: Allocator, goodSize: GoodSize,
                                     sizes: seq<SizeT>, issued: seq<Span>)
    requires RoundsUp(goodSize)
    requires Valid(Merge(a, other).into, alloc, issued)
    requires AllocateAll(Merge(a, other).drained, alloc, goodSize, sizes).Success?
    ensures var r := AllocateAll(Merge(a, other).drained, alloc, goodSize, sizes).value;
            && PairwiseDisjoint(Spans(r.addrs, sizes))
            && (forall s, t :: s in issued && t in Spans(r.addrs, sizes) ==> Disjoint(s, t))
  {
    var d := Merge(a, other).drained;
    var r := AllocateAll(d, alloc, goodSize, sizes).value;
    var ss := Spans(r.addrs, sizes);
    AllocationsNeverOverlap(other.minBlockSize, other.sizeLimit, alloc, goodSize, sizes);
    AllocateAllKeepsFrom(d, alloc, goodSize, sizes, alloc.nextId);
    forall s, t | s in issued && t in ss
      ensures Disjoint(s, t)
    {
      IssuedBelowNextId(Merge(a, other).into, alloc, issued, s);
      var k :| 0 <= k < |ss| && ss[k] == t;
      assert Inside(r.arena.blocks, SpanOf(r.addrs[k], sizes[k]));
      var b :| b in r.arena.blocks && b.id == t.block && t.offset + t.size <= b.usable;
    }
  }
}

=== FILE: limits.dfy ===
/**
 * The hard size limit of `Arena::allocateSlow`. The check is made against the
 * request before slack rounding and with unsigned subtraction. A single slow
 * allocation made from within the limit overshoots it by at most the hint's
 * slack on a normal block, and not at all when the hint does not round that
 * block up. Once the total is past the limit, whether through such an
 * overshoot or through a merge, which adds the other arena's total unchecked,
 * the wrapped subtraction stops the check from refusing anything of ordinary
 * size.
 */
module SizeLimits {
  import opened Outcomes
  import opened Sizes
  import opened Backing
  import opened Arenas
  import opened ArenaInvariants

  /** The ceiling, when there is one, is not exceeded. */
  predicate WithinLimit(a: Arena) {
    a.sizeLimit.Limit? ==> a.total <= a.sizeLimit.bytes
  }

  /** While within the limit, the wrapped check means exactly "would cross the limit". */
  lemma OverLimitWhileWithin(a: Arena, allocSize: nat)
    requires WithinLimit(a)
    ensures OverLimit(a, allocSize) <==> a.sizeLimit.Limit? && a.total + allocSize > a.sizeLimit.bytes
  {
  }

  /**
   * Without limit, the slow path never refuses a representable request; only
   * overflow can make it fail.
   */
  lemma NoLimitOnlyOverflows(a: Arena, alloc: Allocator, goodSize: GoodSize, size: SizeT)
    requires RoundsUp(goodSize)
    requires a.sizeLimit == NoLimit
    ensures AllocateSlow(a, alloc, goodSize, size).Failure? <==> Max(size, a.minBlockSize) + HeaderSize > SizeMax
  {
  }

  /**
   * What a successful slow allocation adds to the total: the size the limit
   * check saw, plus whatever slack the hint added to a normal block.
   */
  lemma SlowPathGrowth(a: Arena, alloc: Allocator, goodSize: GoodSize, size: SizeT)
    requires RoundsUp(goodSize)
    requires AllocateSlow(a, alloc, goodSize, size).Success?
    ensures a.minBlockSize + HeaderSize <= SizeMax
    ensures AllocateSlow(a, alloc, goodSize, size).value.arena.total
            == a.total + Max(size, a.minBlockSize) + HeaderSize
               + (if size > a.minBlockSize then 0
                  else goodSize(a.minBlockSize + HeaderSize) - (a.minBlockSize + HeaderSize))
  {
  }

  /**
   * When the hint leaves the normal block size as it is, a successful slow
   * allocation keeps the total within the limit.
   */
  lemma UnroundedSlowPathKeepsLimit(a: Arena, alloc: Allocator, goodSize: GoodSize, size: SizeT)
    requires RoundsUp(goodSize)
    requires WithinLimit(a)
    requires a.minBlockSize + HeaderSize <= SizeMax
    requires goodSize(a.minBlockSize + HeaderSize) == a.minBlockSize + HeaderSize
    requires AllocateSlow(a, alloc, goodSize, size).Success?
    ensures WithinLimit(AllocateSlow(a, alloc, goodSize, size).value.arena)
  {
  }

  /**
   * In general a successful slow allocation can overshoot the limit, but by no
   * more than the slack the hint adds to a normal block.
   */
  lemma SlowPathOvershootBounded(a: Arena, alloc: Allocator, goodSize: GoodSize, size: SizeT)
    requires RoundsUp(goodSize)
    requires a.sizeLimit.Limit? && WithinLimit(a)
    requires a.minBlockSize + HeaderSize <= SizeMax
    requires AllocateSlow(a, alloc, goodSize, size).Success?
    ensures AllocateSlow(a, alloc, goodSize, size).value.arena.total
            <= a.sizeLimit.bytes + (goodSize(a.minBlockSize + HeaderSize) - (a.minBlockSize + HeaderSize))
  {
  }

  /** An example hint that rounds every request up to at least 64 bytes. */
  function RoundUpTo64(n: SizeT): (r: SizeT)
    ensures n <= r
    ensures r == n || (n < 64 && r == 64)
  {
    if n < 64 then 64 else n
  }

  /**
   * With limit 40 and minimum block size 16, a one-byte request passes the
   * check (24 bytes asked for) but draws 64 bytes once the hint rounds it.
   */
  lemma RoundingOvershootsLimit()
    ensures var r := AllocateSlow(NewArena(16, Limit(40)), Allocator(0, []), RoundUpTo64, 1);
            && r.Success?
            && r.value.arena.total == 64
            && !WithinLimit(r.value.arena)
  {
  }

  /**
   * Once the total has passed the limit, `limit - total` wraps to a huge value,
   * so every request whose size stays below that value passes the check.
   */
  lemma OvershootDisablesLimitCheck(a: Arena, alloc: Allocator, goodSize: GoodSize, size: SizeT)
    requires RoundsUp(goodSize)
    requires a.sizeLimit.Limit? && a.total > a.sizeLimit.bytes
    requires Max(size, a.minBlockSize) + HeaderSize <= SizeMax
    requires Max(size, a.minBlockSize) + HeaderSize <= SizeModulus - (a.total - a.sizeLimit.bytes)
    ensures AllocateSlow(a, alloc, goodSize, size).Success?
  {
  }

  /**
   * Continuing the example: after the overshoot, a 1000-byte request, far
   * beyond the 40-byte limit, is served.
   */
  lemma LimitStopsBindingAfterOvershoot()
    ensures var r1 := AllocateSlow(NewArena(16, Limit(40)), Allocator(0, []), RoundUpTo64, 1);
            && r1.Success?
            && var r2 := AllocateSlow(r1.value.arena, r1.value.alloc, RoundUpTo64, 1000);
            && r2.Success?
            && r2.value.arena.total == 64 + 1008
  {
  }

  /**
   * A merge carries the total past the limit even with a hint that never
   * rounds: an arena limited to 40 that has drawn 24 bytes absorbs an arena
   * that drew one 1008-byte block from the same allocator, and then a
   * 5000-byte request is served. Every state on the way is valid.
   */
  lemma MergeCarriesPastLimit()
    ensures var identity: GoodSize := (n: SizeT) => n;
            var r1 := AllocateSlow(NewArena(16, Limit(40)), Allocator(0, []), identity, 1);
            && r1.Success?
            && r1.value.arena.total == 24
            && var ro := AllocateSlow(NewArena(16, NoLimit), r1.value.alloc, identity, 1000);
            && ro.Success?
            && var m := Merge(r1.value.arena, ro.value.arena).into;
            && Valid(m, ro.value.alloc, [])
            && m.total == 1032
            && !WithinLimit(m)
            && AllocateSlow(m, ro.value.alloc, identity, 5000).Success?
  {
    var identity: GoodSize := (n: SizeT) => n;
    var r1 := AllocateSlow(NewArena(16, Limit(40)), Allocator(0, []), identity, 1);
    assert identity(24) == 24;
    var ro := AllocateSlow(NewArena(16, NoLimit), r1.value.alloc, identity, 1000);
    var m := Merge(r1.value.arena, ro.value.arena).into;
    OvershootDisablesLimitCheck(m, ro.value.alloc, identity, 5000);
  }
}

=== FILE: outcomes.dfy ===
/** Failure-carrying return values used in place of the exceptions the arena throws. */
module Outcomes {

  /** A value that may be absent; `checked_add` reports a wrapped sum as `None`. */
  datatype Option<+T> = None | Some(value: T)

  /** Either a successful value or the error the operation signalled. */
  datatype Result<+T, +E> = Success(value: T) | Failure(error: E)
}

=== FILE: paths.dfy ===
/** Properties of the two allocation paths seen from a client. */
module AllocationPaths {
  import opened Outcomes
  import opened Sizes
  import opened Backing
  import opened Arenas
  import opened ArenaInvariants

  /**
   * Two requests that together fit before `end` are served back to back: the
   * second address is the first plus the first size, and the backing allocator
   * is not called.
   */
  lemma FastPathContiguous(a: Arena, alloc: Allocator, goodSize: GoodSize, x: SizeT, y: SizeT)
    requires RoundsUp(goodSize)
    requires FitsCursor(a, x + y)
    ensures var r1 := Allocate(a, alloc, goodSize, x);
            && r1.Success?
            && r1.value.addr == Addr(a.cursor.value.block, a.cursor.value.ptr)
            && var r2 := Allocate(r1.value.arena, r1.value.alloc, goodSize, y);
            && r2.Success?
            && r2.value.addr == Addr(r1.value.addr.block, r1.value.addr.offset + x)
            && r2.value.alloc == alloc
            && r2.value.arena.blocks == a.blocks
            && r2.value.arena.total == a.total
  {
  }

  /**
   * In a valid arena no request, on either path, is ever served from an
   * oversized block acquired earlier, that is one already in the list.
   */
  lemma NeverServedFromOversized(a: Arena, alloc: Allocator, goodSize: GoodSize, size: SizeT, issued: seq<Span>)
    requires RoundsUp(goodSize)
    requires Valid(a, alloc, issued)
    requires Allocate(a, alloc, goodSize, size).Success?
    ensures forall b :: b in a.blocks && b.kind == Oversized ==> b.id != Allocate(a, alloc, goodSize, size).value.addr.block
  {
  }

  /**
   * The largest request fails with the overflow error, whatever the arena's
   * state, instead of wrapping round to a small block.
   */
  lemma LargestRequestOverflows(a: Arena, alloc: Allocator, goodSize: GoodSize)
    requires RoundsUp(goodSize)
    ensures AllocateSlow(a, alloc, goodSize, SizeMax) == Failure(SizeOverflow)
    ensures !FitsCursor(a, SizeMax) ==> Allocate(a, alloc, goodSize, SizeMax) == Failure(SizeOverflow)
  {
  }
}

=== FILE: sizes.dfy ===
/** Machine-width arithmetic on `size_t`, written out explicitly. */
module Sizes {
  import opened Outcomes

  /** Number of distinct `size_t` values on a 64-bit target. */
  const SizeModulus: nat := 0x1_0000_0000_0000_0000

  /** The largest representable `size_t`. */
  const SizeMax: nat := SizeModulus - 1

  /** A non-negative integer that fits in `size_t`. */
  type SizeT = n: nat | n <= SizeMax

  /** `std::max` on sizes. */
  function Max(a: SizeT, b: SizeT): (m: SizeT)
    ensures a <= m && b <= m
    ensures m == a || m == b
  {
    if a < b then b else a
  }

  /** folly's `checked_add`: the sum when it is representable, `None` when it would wrap. */
  function CheckedAdd(a: SizeT, b: SizeT): (r: Option<SizeT>)
    ensures r.None? <==> a + b > SizeMax
    ensures r.Some? ==> r.value == a + b
  {
    if a + b <= SizeMax then Some(a + b) else None
  }

  /** Unsigned `size_t` subtraction, which wraps modulo 2^64 when `b > a`. */
  function WrapSub(a: SizeT, b: nat): (r: SizeT)
    ensures b <= a ==> r == a - b
    ensures a < b <= a + SizeModulus ==> r == SizeModulus - (b - a)
  {
    (a - b) % SizeModulus
  }

  /** The backing allocator's good-size hint, mapping a request to a size it serves well. */
  type GoodSize = SizeT -> SizeT

  /** The hint's contract: it never answers with less than was asked for. */
  predicate RoundsUp(goodSize: GoodSize) {
    forall n: SizeT :: n <= goodSize(n)
  }
}

=== FILE: teardown.dfy ===
/**
 * Accounting for `Arena::~Arena`: the release calls the teardown loop makes
 * cover the block list exactly, one call per block.
 */
module TeardownAccounting {
  import opened Backing
  import opened Arenas
  import opened ArenaInvariants

  /** How many release calls in `es` hand back block `id`, whatever count they pass. */
  function ReleaseCount(es: seq<Event>, id: BlockId): nat {
    if es == [] then 0
    else (if es[0].Released? && es[0].id == id then 1 else 0) + ReleaseCount(es[1..], id)
  }

  /** In a list without repeated identifiers, each block is released exactly once. */
  lemma {:induction false} ReleasedExactlyOnce(bs: seq<Block>, i: nat)
    requires DistinctIds(bs)
    requires i < |bs|
    ensures ReleaseCount(Releases(bs), bs[i].id) == 1
  {
    var rest := bs[1..];
    assert DistinctIds(rest) by {
      forall p, q | 0 <= p < q < |rest|
        ensures rest[p].id != rest[q].id
      {
        assert rest[p] == bs[p + 1] && rest[q] == bs[q + 1];
      }
    }
    assert Releases(bs)[1..] == Releases(rest);
    if i == 0 {
      ReleasedNever(rest, bs[0].id);
    } else {
      assert bs[i] == rest[i - 1];
      ReleasedExactlyOnce(rest, i - 1);
    }
  }

  /** A block not in the list is never released by its teardown. */
  lemma {:induction false} ReleasedNever(bs: seq<Block>, id: BlockId)
    requires forall b :: b in bs ==> b.id != id
    ensures ReleaseCount(Releases(bs), id) == 0
  {
    if bs != [] {
      assert Releases(bs)[1..] == Releases(bs[1..]);
      ReleasedNever(bs[1..], id);
    }
  }

  /**
   * Tearing down a valid arena releases every block it owns exactly once,
   * makes one release call per block and no other, and releases only blocks
   * whose acquisition the allocator logged.
   */
  lemma TeardownReleasesEachBlockOnce(a: Arena, alloc: Allocator, issued: seq<Span>)
    requires Valid(a, alloc, issued)
    ensures |Releases(a.blocks)| == |a.blocks|
    ensures forall b :: b in a.blocks ==> ReleaseCount(Releases(a.blocks), b.id) == 1
    ensures forall id :: (forall b :: b in a.blocks ==> b.id != id) ==> ReleaseCount(Releases(a.blocks), id) == 0
    ensures forall k :: 0 <= k < |a.blocks| ==>
              Releases(a.blocks)[k].Released? && Acquired(Releases(a.blocks)[k].id, a.blocks[k].Footprint()) in alloc.events
  {
    forall b | b in a.blocks
      ensures ReleaseCount(Releases(a.blocks), b.id) == 1
    {
      var i :| 0 <= i < |a.blocks| && a.blocks[i] == b;
      ReleasedExactlyOnce(a.blocks, i);
    }
    forall id | forall b :: b in a.blocks ==> b.id != id
      ensures ReleaseCount(Releases(a.blocks), id) == 0
    {
      ReleasedNever(a.blocks, id);
    }
  }
}
